=== FILE: README.md ===
# connect-manager session core, in Dafny

This project models the session core of connect-manager, a small Node.js
library for JSON-RPC style connections:

- **AbstractSession** (`session.js`): construction defaults, the
  read-purge-rewrite activity refresh over a key/hash store, `start`/`stop`,
  the owner/access setters, and the bitmask checks `hasAccess` and
  `hasAccessOrMe`.
- **Message** (`message.js`): construction from arguments, an object or
  parsed text, `setError`, `suppress` and the outgoing `toJSON` shape.
- **SessionManager** (`manager.js`): the handler table, the two-phase
  `processMessage` dispatch, the owner and access-group indexes, `stopSession`
  and the three broadcasts.
- **Constants** (`constants.js`): the reserved access masks and the error
  table.

Everything is a pure function. A session operation returns the new session,
the new store and the events it emitted. A dispatch or broadcast returns the
deliveries it made, as `(session id, message)` pairs appended to an outbox,
plus the exception it threw, if any. The JavaScript the code relies on is
modelled in `Js`:

- truthiness, `||` and `&&`;
- loose equality `==` and property-key conversion;
- `ToInt32` and `&`.

The code is modelled as written, including where it departs from its own
doc-comments:

- **Sentinel masks.** `hasAccess` refuses the access value -1 and admits 0.
  The comments call -1 full privileges and 0 banned.
- **`isActive`.** It passes the session id where the field name belongs. It
  therefore reads the field named after the id, not `lastActive`.
- **`stop`.** It resets the id to 0 before purging. It therefore purges
  hash 0 and emits `stop` with 0.
- **`hasAccessOrMe`.** Unless ownership is unsafe, it calls `getValueSync`,
  which sessions do not have, so it throws.
- **`hasProperty`.** It returns nothing. The extra validity check of
  `fromString` therefore never refuses anything. On text that parses to
  `null`, `hasOwnProperty` throws a TypeError.
- **`suppress()`.** It sets `isSuppressed`, but the manager reads
  `suppressSend`. Suppressing a message does not stop its send.
- **`isString`.** For any object it goes on to compare with `stringTag`, a
  name declared nowhere, so `Message(obj)` with a single object throws a
  ReferenceError and never reaches `fromObject`.
- **Dispatch order.** Dispatch is the common group, then the method group or
  a METHOD_NOT_FOUND error, then the send. The method group is looked up by
  the method the common handlers left on the shared message.
- **`stopSession`.**
  - It nulls whatever owner entry the session's owner maps to, even one a
    later session of the same owner registered.
  - It removes the last member of the access group when the id is absent.
  - It leaves a null entry in `sessions`, after which `broadcast` throws.
- **Access groups.** The setAccess listener only appends. A session whose
  access changed stays in its old group.

## Model

| member | source | states |
|---|---|---|
| Constants.Entry | constants.js:6-43 | every error entry has a code between -32603 and -32000 and a non-empty default message |
| Constants.ErrorObject | constants.js:6-43 | the entry as the `{code, message}` object carries exactly those two keys with the table's values |
| Constants.TableFollowsJsonRpc | constants.js:7-18 | METHOD_NOT_FOUND, INVALID_PARAMS and INTERNAL_ERROR have the meanings of section 5.1 (Error object) of the JSON-RPC 2.0 Specification; every other entry lies in its server-error range |
| Constants.AuthCodesConsecutive | constants.js:23-38 | NO_AUTH, FAIL_AUTH, BANNED and NOT_ENOUGH_PERMISSIONS are the consecutive codes -32001 down to -32004 |
| Constants.CodesNotUnique | constants.js:19-42 | two different entries (RESERVED and UNKNOWN) share a code, so a code does not identify its entry |
| AccessControl.StrictMode | session.js:164-165 | a null or undefined `strict` means strict; any other value is strict exactly when truthy |
| AccessControl.BitAndGranted | session.js:174 | `access & right` is truthy exactly when the 32-bit masks share a bit |
| AccessControl.AllFold | session.js:172-177 | the strict loop: once the running result is falsy it stays falsy |
| AccessControl.AnyFold | session.js:172-177 | the lax loop: once the running result is truthy it stays truthy |
| AccessControl.AllFoldMeansAll | session.js:168-177 | the strict and-fold is truthy iff the start value is truthy and every right shares a bit with the access |
| AccessControl.AnyFoldMeansAny | session.js:170-177 | the lax or-fold is truthy iff the start value is truthy or some right shares a bit with the access |
| AccessControl.Check | session.js:160-178 | an access loosely equal to -1 is refused, one loosely equal to 0 is admitted; otherwise strict (also when `strict` is null or undefined) requires every right and lax requires one |
| AccessControl.GodRefused | session.js:160-161 | -1 holds every bit of any non-zero right and is still refused |
| AccessControl.BannedAdmitted | session.js:162-163 | 0 holds no bit and is still admitted |
| AccessControl.DefaultsAndScalars | session.js:164-167 | an absent `strict` behaves as `true`, and a scalar right behaves as the one-element list |
| AccessControl.EmptyRightsList | session.js:168-178 | with no rights asked for, the strict check passes and the lax one fails |
| AccessControl.StrictAllHeld | session.js:172-177 | access 6 passes the strict check for rights 2 and 4 |
| AccessControl.StrictOneMissing | session.js:172-177 | access 6 fails the strict check for rights 2 and 8 |
| AccessControl.AnyOneHeld | session.js:172-177 | access 6 passes the lax check for rights 2 and 8 |
| Envelope.FromParams | message.js:79-85 | each field is kept when truthy and otherwise defaulted (0, "", {}, {}, null); the id is never null or undefined |
| Envelope.FromObject | message.js:60-70 | throws exactly when the object has a truthy id and no truthy method; otherwise builds the message `fromParams` would build from its fields |
| Envelope.IsObject | message.js:5 | an object is truthy and never null or undefined |
| Envelope.IsString | message.js:6 | true exactly for a string; throws a ReferenceError exactly for an object, through the undeclared `stringTag` |
| Envelope.FromParsed | message.js:72-77 | a parsed null throws a TypeError; any other parsed value gets exactly the treatment of `fromObject` |
| Envelope.StringCheckNeverRefuses | message.js:72-77 | the extra check of `fromString` refuses nothing that `fromObject` accepts |
| Envelope.Construct | message.js:14-43 | zero or several arguments go positionally to `fromParams`; one string is parsed and goes through `fromString`, one object throws a ReferenceError from `isString`, any other single value becomes the id; the result is not suppressed |
| Envelope.NullTextThrowsTypeError | message.js:72-77 | text parsing to null throws a TypeError where an invalid message would have been reported |
| Envelope.TextAndObjectDiverge | message.js:34-37 | text that parses to an object builds the message `fromObject` builds from it, while that object passed directly throws a ReferenceError |
| Envelope.NoArgumentsDefaults | message.js:14-31 | `Message()` is id 0, method "", empty params and result, no error |
| Envelope.SetError | message.js:49-58 | an object error is kept, any other becomes UNKNOWN; a truthy text replaces the error's message, and the error's keys are the kept ones plus `message`, so no `status` or other key appears; the rest of the message is unchanged |
| Envelope.NonObjectErrorIsUnknown | message.js:49-54 | a non-object error goes on the wire as code -32000, "Unknown protocol error", while UNKNOWN's message is unmodified |
| Envelope.Suppress | message.js:45-47 | sets `isSuppressed` and changes nothing else |
| Envelope.SuppressIdempotent | message.js:45-47 | suppressing twice is suppressing once, and `suppressSend` is untouched |
| Envelope.ToJson | message.js:87-108 | a truthy error gives exactly `{id, error:{code, message}}`; otherwise a null or undefined id gives `{method, params}` carrying `result` as params, and any other id gives `{id, result}` |
| Envelope.ErrorWins | message.js:98-106 | an error reply does not depend on method, params or result |
| Envelope.ErrorCodePrefersStatus | message.js:102 | a truthy `status` on the error is sent as the code |
| Envelope.ConstructedIsNeverNotification | message.js:92-97 | a message built by `fromParams` or `fromObject` never takes the notification shape |
| Envelope.NotificationRoundTrip | message.js:87-97 | a notification read back by `fromObject` keeps its method and returns its result as params |
| Envelope.ReplyRoundTripThrows | message.js:88-91 | a reply with a truthy id cannot be read back: `fromObject` throws |
| Envelope.ErrorRoundTrip | message.js:98-106 | an error reply reads back iff its id is falsy, and then carries the `{code, message}` object sent |
| Sessions.NewSession | session.js:36-43 | timeout defaults to 3600 and the owner id field to "id"; unsafe ownership is the truthiness of the parameter; lastActive starts at 0 |
| Sessions.UpdateActivity | session.js:97-109 | the session's hash keeps every field and gains `lastActive = now`; other hashes are untouched; the expiry is renewed with the timeout; `update` is emitted |
| Sessions.GetSync | session.js:69-71 | the field of the session's own hash, null when the hash or the field is missing |
| Sessions.SetSync | session.js:61-63 | the session's own hash gains the field and keeps its others; other hashes and the expiries are untouched |
| Sessions.PurgeSessionSync | session.js:85-87 | the session's own hash is gone; other hashes and the expiries are untouched |
| Sessions.SetThenGet | session.js:61-87 | `getSync` reads back what `setSync` wrote, other fields are unaffected, and after a purge every field reads null |
| Sessions.IsActive | session.js:111-113 | true iff the session's hash holds a truthy field named after the session id |
| Sessions.IsActiveIgnoresActivity | session.js:111-113 | after a refresh, `isActive` reports the field named after the id, not `lastActive` |
| Sessions.RefreshedButInactive | session.js:111-113 | a session just refreshed is inactive when its hash has no field named after its id |
| Sessions.Hex | session.js:121 | hex text has two lower-case hex digits per byte |
| Sessions.HexInjective | session.js:121 | different byte strings of one length have different hex text |
| Sessions.FreshId | session.js:121 | a fresh id is the prefix, '_', then 32 hex digits |
| Sessions.FreshIdsDistinct | session.js:121 | different random bytes give different ids under one prefix |
| Sessions.Start | session.js:115-128 | a truthy id is resumed with owner and access read from its hash, any other is replaced by a fresh id with null owner and access; no other session field changes except `lastActive`; the hash keeps its fields and gains only `lastActive`, other hashes are untouched, and the expiry is renewed to the session's timeout; `update`, then `start` with the id, are emitted |
| Sessions.Stop | session.js:130-136 | the session becomes id 0, owner null, access 0; only hash 0 is purged, the old hash stays; `stop` is emitted with 0 |
| Sessions.Persist | session.js:140-148 | a truthy suppressUpdate leaves the store alone; otherwise exactly this session's field is written |
| Sessions.SetOwner | session.js:138-143 | the session takes the owner; the store records it unless suppressed; `owner` is emitted with the id in either case |
| Sessions.SetAccess | session.js:145-150 | the same for the access value |
| Sessions.ResumeReadsBack | session.js:115-150 | owner and access written through the setters are what `start(id)` on the same id reads back |
| Sessions.SuppressedOwnerNotResumed | session.js:138-143 | a suppressed owner update is lost to a resumed session, which gets the stored owner |
| Sessions.HasAccess | session.js:157-179 | the rights check on the in-memory access under unsafe ownership, on the stored one otherwise |
| Sessions.StoredAccessDecides | session.js:159 | without unsafe ownership the in-memory access is ignored |
| Sessions.HasAccessOrMe | session.js:188-194 | throws a TypeError unless ownership is unsafe; otherwise true iff the owner loosely equals the user or `hasAccess` holds |
| Dispatcher.AddMethodHandler | manager.js:55-64 | a function under a name that is truthy and has a positive `length` is appended to the end of the group keyed by `String(name)`, creating it; other groups are untouched; anything else leaves the table unchanged, so an empty string, a number or a boolean is ignored |
| Dispatcher.NumberNameIgnored | manager.js:55-64 | `addMethodHandler(5, f)` leaves the table unchanged, and a message with method 5 then finds no group |
| Dispatcher.Use | manager.js:51-54 | a function joins the end of the common group `*` |
| Dispatcher.RunChain | manager.js:65-73 | the handlers run in order on the message each left, stopping after the first that signals stop, all of them otherwise |
| Dispatcher.ChainSpecUnique | manager.js:65-73 | that description determines the run completely |
| Dispatcher.RunMethodHandlers | manager.js:65-73 | runs the named group as described, an absent group as none |
| Dispatcher.ProcessMessage | manager.js:112-135 | the common group runs first; if it stopped, nothing else runs; otherwise the method the message carries after the common group selects the group, and an unknown one gets METHOD_NOT_FOUND; the result is sent once unless `suppressSend` is set |
| Dispatcher.CommonHandlerReroutes | manager.js:121-123 | a common handler that rewrites the method makes the new method's group run, although the arriving method has none |
| Dispatcher.SendsOnceUnlessSuppressSend | manager.js:131-134 | every dispatch sends at most once, exactly once unless `suppressSend`, and keeps earlier deliveries |
| Dispatcher.UnknownMethodReply | manager.js:126-129 | for every table, a dispatch that finds no method group goes on the wire with code -32601; with no common handlers, a method without a group is such a dispatch |
| Dispatcher.SuppressDoesNotPreventSend | manager.js:132-133 | a handler that calls `suppress()` still has its message sent |
| Registry.OnSetOwner | manager.js:15-17 | the owner's entry now names the session, whatever it named before; other owners are unchanged |
| Registry.OnSetAccess | manager.js:19-23 | the session is appended to its access group, creating it; other groups are unchanged |
| Registry.LastOwnerWins | manager.js:15-17 | of two registrations for one owner, the later wins |
| Registry.AccessChangeKeepsOldGroup | manager.js:19-23 | after access changes from a to b, the session is a member of both groups |
| Registry.NumberAndTextShareGroup | manager.js:19-23 | a number and its decimal text select one group |
| Registry.IndexOf | manager.js:108 | the first position holding the id, or -1 exactly when it is absent |
| Registry.SpliceOne | manager.js:108 | removes the element at a valid index, the last element for -1, nothing from an empty list |
| Registry.StopSession | manager.js:104-111 | a truthy owner entry becomes null; the group loses the first occurrence of the id, or its last member when the id is absent; the session's entry becomes null, not deleted |
| Registry.Deliver | manager.js:149-151 | sends to the ids' sessions in order and stops at the first id without a live session, which is exactly when not every id was served |
| Registry.Broadcast | manager.js:136-140 | sends to the entries in enumeration order; it throws iff some entry is null, and then exactly at the first null entry, after the sends before it; otherwise it sends to all of them |
| Registry.FanoutFailsOnNulled | manager.js:136-140 | over all keys, the send loop stops short exactly when some entry is null |
| Registry.BroadcastByUser | manager.js:141-145 | with a truthy owner entry, the one-id case of the group fan-out over that entry: one send to its session, or a TypeError when it names no live session; otherwise nothing happens |
| Registry.BroadcastByGroup | manager.js:146-153 | one send per group member in list order up to the first without a live session, which throws |
| Registry.StopClearsOtherSessionsOwner | manager.js:104-106 | stopping a session clears its owner's entry even when it names a later session, which the owner can then not reach |
| Registry.BroadcastThrowsAfterStop | manager.js:110 | after any `stopSession`, `broadcast` throws |
| Registry.OldGroupStillReached | manager.js:146-153 | a session whose access moved from a to b still receives broadcasts to group a |
| Registry.StopFirstHidesSession | manager.js:104-111 | a session whose `stop()` ran first is not found by `stopSession`: its own entry stays live |

## Left out

- `startSession` and the connection wiring (manager.js:74-103) are not modelled. They hook transport events, and they call the `Session` constructor without parameters. That call always throws a TypeError, because the constructor reads `params.timeout` (session.js:37); `Sessions.NewSession` takes a params record, which is never null or undefined. The registry is built directly from its three maps instead.
- The events a session emits are returned as a list. Nothing in the package forwards a session's `owner`/`access` events (session.js:142, 149) to the `Session:setOwner`/`Session:setAccess` events the manager listens on (manager.js:15, 19). So in the code as written the setters never update the owner and access indexes, and `broadcastByUser`/`broadcastByGroup` reach only what outside code puts on the bus. `Registry.OnSetOwner` and `Registry.OnSetAccess` model the listeners and are called explicitly, with the values such an event carries.
- The statistics object, the websocket and HTTP providers, the package index and `toString` are not modelled. `toString` is JSON text, and `Envelope.ToJson` yields the object it would serialise.
- `JSON.parse` is a parameter of `Envelope.Construct`. Text syntax is not modelled.
- The asynchronous store methods (`set`, `get`, `delete`, `purgeSession`, `expire`) are not modelled, and neither are `deleteSync`, `_setSync` and `_getSync`. Nothing in the core calls them. The store is an abstract map of hashes with a TTL map: expiry is recorded, never enacted. Hash ids and field names are JavaScript values, not strings, so the number 0 and the text "0" name different hashes; a string-keyed backend would treat them as one, and `Sessions.Stop` there would purge the hash of a session whose id is the text "0".
- The clock (`Date.now`) and `crypto.randomBytes` are parameters (`now`, and 16 bytes of `random`).
- Handlers are pure functions from (session, message) to the message they leave, standing for the shared message object after the handler, and whether they signalled stop. Mutation of shared objects, asynchronous completion, handlers that never call back, and handlers that throw are not modelled. A handler that throws synchronously propagates out of `processMessage` and nothing is sent. Non-function callables are a separate case.
- `createRpcError` is not part of this model. `Dispatcher.ProcessMessage` takes its result to be the METHOD_NOT_FOUND entry.
- Object identity is not modelled: objects compare structurally and are values. So `===` in `indexOf` is value equality. Keys inherited from `Object.prototype` (such as a method named `toString`) are not handler groups or index entries here.
- Numbers are integers. Floats, NaN as a stored value, and exponent or hexadecimal string forms are not modelled. Strings convert to numbers only as optional sign plus decimal digits, otherwise NaN.
- Envelope.SetError: the code assigns UNKNOWN's shared constant object, or the caller's object, and then writes `message` into it. The model gives the message a modified copy, so the constants table and the caller's object are never changed.
- Envelope.NonObjectErrorIsUnknown: holds only while UNKNOWN's message is unmodified. In the code, `setError(x, text)` with a non-object `x` writes `text` into the shared UNKNOWN object (message.js:53, 56), and every later non-object error then carries `text`. The model does not track that shared object.
- Registry.Broadcast: the order in which `_.each` visits the sessions is a parameter, any order listing each key once.
- String objects (`new String(...)`) and functions as values are not modelled. `Envelope.IsString` throws for every object, since a string object would reach the same undeclared `stringTag`; `Envelope.IsObject` is true exactly for objects.
- Sessions.Start: the random id is built from `String(sessionPrefix)`. An absent prefix reads as "undefined" there, as in the code.

=== FILE: access.dfy ===
/**
  The bitmask rights check behind `hasAccess`, on an access value already
  read: the two sentinel comparisons, then a fold of `&` over the desired
  rights with JavaScript `&&` (all rights required) or `||` (any right
  enough).
 */
module AccessControl {
  import opened Js
  import Constants

  /** The `desired` argument: one right, or an array of rights. */
  datatype Desired = One(right: Value) | Many(rights: seq<Value>)

  /** `if (!_.isArray(desired)) desired = [desired]` */
  function Rights(d: Desired): seq<Value>
  {
    match d
    case One(r) => [r]
    case Many(rs) => rs
  }

  /** `strict` after `if (strict == null) strict = true`, read as a condition:
      a missing flag means strict, a falsy one lax. */
  predicate StrictMode(strict: Value)
    ensures IsNullish(strict) ==> StrictMode(strict)
    ensures !IsNullish(strict) ==> (StrictMode(strict) <==> Truthy(strict))
  {
    IsNullish(strict) || Truthy(strict)
  }

  /** `access & right` is non-zero. */
  predicate Granted(access: Value, right: Value)
  {
    ToInt32(access) & ToInt32(right) != 0
  }

  predicate AllGranted(access: Value, rights: seq<Value>)
  {
    forall i :: 0 <= i < |rights| ==> Granted(access, rights[i])
  }

  predicate AnyGranted(access: Value, rights: seq<Value>)
  {
    exists i :: 0 <= i < |rights| && Granted(access, rights[i])
  }

  predicate IsGodValue(access: Value)
  {
    LooseEq(access, Num(Constants.IsGod))
  }

  predicate IsBannedValue(access: Value)
  {
    LooseEq(access, Num(Constants.IsBanned))
  }

  /** The strict loop: `result = result && (target & right)` for each right in turn. */
  function AllFold(result: Value, target: Value, rights: seq<Value>): (r: Value)
    ensures !Truthy(result) ==> !Truthy(r)
    decreases |rights|
  {
    if |rights| == 0 then result
    else AllFold(And(result, BitAnd(target, rights[0])), target, rights[1..])
  }

  /** The non-strict loop: `result = result || (target & right)` for each right in turn. */
  function AnyFold(result: Value, target: Value, rights: seq<Value>): (r: Value)
    ensures Truthy(result) ==> Truthy(r)
    decreases |rights|
  {
    if |rights| == 0 then result
    else AnyFold(Or(result, BitAnd(target, rights[0])), target, rights[1..])
  }

  /** `access & right` is truthy exactly when the right is granted. */
  lemma BitAndGranted(access: Value, right: Value)
    ensures Truthy(BitAnd(access, right)) <==> Granted(access, right)
  {
  }

  lemma SplitAll(access: Value, rights: seq<Value>)
    requires |rights| > 0
    ensures AllGranted(access, rights) <==> Granted(access, rights[0]) && AllGranted(access, rights[1..])
  {
    assert forall i :: 0 < i < |rights| ==> rights[1..][i - 1] == rights[i];
  }

  lemma SplitAny(access: Value, rights: seq<Value>)
    requires |rights| > 0
    ensures AnyGranted(access, rights) <==> Granted(access, rights[0]) || AnyGranted(access, rights[1..])
  {
    if AnyGranted(access, rights) && !Granted(access, rights[0]) {
      var i :| 0 <= i < |rights| && Granted(access, rights[i]);
      assert rights[1..][i - 1] == rights[i];
    }
    if AnyGranted(access, rights[1..]) {
      var j :| 0 <= j < |rights[1..]| && Granted(access, rights[1..][j]);
      assert rights[j + 1] == rights[1..][j];
    }
  }

  lemma {:induction false} AllFoldMeansAll(result: Value, target: Value, rights: seq<Value>)
    ensures Truthy(AllFold(result, target, rights)) <==> Truthy(result) && AllGranted(target, rights)
    decreases |rights|
  {
    if |rights| > 0 {
      var next := And(result, BitAnd(target, rights[0]));
      BitAndGranted(target, rights[0]);
      AllFoldMeansAll(next, target, rights[1..]);
      SplitAll(target, rights);
    }
  }

  lemma {:induction false} AnyFoldMeansAny(result: Value, target: Value, rights: seq<Value>)
    ensures Truthy(AnyFold(result, target, rights)) <==> Truthy(result) || AnyGranted(target, rights)
    decreases |rights|
  {
    if |rights| > 0 {
      var next := Or(result, BitAnd(target, rights[0]));
      BitAndGranted(target, rights[0]);
      AnyFoldMeansAny(next, target, rights[1..]);
      SplitAny(target, rights);
    }
  }

  /** The check `hasAccess` makes once it holds the access value. */
  function Check(access: Value, desired: Desired, strict: Value): (r: bool)
    ensures IsGodValue(access) ==> !r
    ensures IsBannedValue(access) ==> r
    ensures !IsGodValue(access) && !IsBannedValue(access) ==>
      (r <==> if StrictMode(strict) then AllGranted(access, Rights(desired))
                                   else AnyGranted(access, Rights(desired)))
  {
    if IsGodValue(access) then false
    else if IsBannedValue(access) then true
    else if StrictMode(strict) then
      AllFoldMeansAll(Bool(true), access, Rights(desired));
      Truthy(AllFold(Bool(true), access, Rights(desired)))
    else
      AnyFoldMeansAny(Bool(false), access, Rights(desired));
      Truthy(AnyFold(Bool(false), access, Rights(desired)))
  }

  /** The sentinels act the other way round from the bit rule: -1 holds every
      bit yet is refused ... */
  lemma GodRefused(right: Value, strict: Value)
    requires ToInt32(right) != 0
    ensures Granted(Num(Constants.IsGod), right)
    ensures !Check(Num(Constants.IsGod), One(right), strict)
  {
    GodHoldsEveryBit(right);
    assert IsGodValue(Num(-1));
  }

  lemma GodHoldsEveryBit(right: Value)
    requires ToInt32(right) != 0
    ensures Granted(Num(Constants.IsGod), right)
  {
    assert ToInt32(Num(-1)) == 0xFFFF_FFFF;
  }

  /** ... and 0 holds no bit yet is admitted. */
  lemma BannedAdmitted(right: Value, strict: Value)
    ensures !Granted(Num(Constants.IsBanned), right)
    ensures Check(Num(Constants.IsBanned), One(right), strict)
  {
    assert ToInt32(Num(0)) == 0;
    assert IsBannedValue(Num(0)) && !IsGodValue(Num(0));
  }

  /** A missing `strict` means strict, and a single right is the one-element list. */
  lemma DefaultsAndScalars(access: Value, right: Value, strict: Value)
    ensures Check(access, One(right), Undefined) == Check(access, One(right), Bool(true))
    ensures Check(access, One(right), Null) == Check(access, One(right), Bool(true))
    ensures Check(access, One(right), strict) == Check(access, Many([right]), strict)
  {
  }

  /** With no rights asked for, the strict check passes and the lax one fails. */
  lemma EmptyRightsList(access: Value, strict: Value)
    requires !IsGodValue(access) && !IsBannedValue(access)
    ensures Check(access, Many([]), strict) == StrictMode(strict)
  {
  }

  /** Worked example: access 0b0110 holds both of 0b0010 and 0b0100 ... */
  lemma StrictAllHeld()
    ensures Check(Num(6), Many([Num(2), Num(4)]), Bool(true))
  {
    assert !IsGodValue(Num(6)) && !IsBannedValue(Num(6));
    SixHoldsTwoAndFour();
    assert AllGranted(Num(6), [Num(2), Num(4)]);
  }

  /** ... but only one of 0b0010 and 0b1000, which fails the strict check ... */
  lemma StrictOneMissing()
    ensures !Check(Num(6), Many([Num(2), Num(8)]), Bool(true))
  {
    assert !IsGodValue(Num(6)) && !IsBannedValue(Num(6));
    SixLacksEight();
    assert !Granted(Num(6), [Num(2), Num(8)][1]);
  }

  lemma SixHoldsTwoAndFour()
    ensures Granted(Num(6), Num(2)) && Granted(Num(6), Num(4))
  {
    assert ToInt32(Num(6)) == 6 && ToInt32(Num(2)) == 2 && ToInt32(Num(4)) == 4;
  }

  lemma SixLacksEight()
    ensures !Granted(Num(6), Num(8))
  {
    assert ToInt32(Num(6)) == 6 && ToInt32(Num(8)) == 8;
  }

  /** ... and passes the lax one. */
  lemma AnyOneHeld()
    ensures Check(Num(6), Many([Num(2), Num(8)]), Bool(false))
  {
    assert !IsGodValue(Num(6)) && !IsBannedValue(Num(6));
    SixHoldsTwoAndFour();
    assert Granted(Num(6), [Num(2), Num(8)][0]);
  }
}

=== FILE: constants.dfy ===
/**
  The constant table shared by sessions, messages and the manager: the two
  reserved access masks and the named error entries, each a code and a
  default message.
 */
module Constants {
  import opened Js

  /** Access mask the doc-comment describes as full privileges. */
  const IsGod: int := -1
  /** Access mask the doc-comment describes as banned / no rights. */
  const IsBanned: int := 0

  datatype ErrorName =
    | MethodNotFound
    | InvalidParams
    | InternalError
    | Reserved
    | NoAuth
    | FailAuth
    | Banned
    | NotEnoughPermissions
    | Unknown

  datatype RpcError = RpcError(code: int, message: string)

  /** Every name of the table, in declaration order. */
  const AllNames: seq<ErrorName> :=
    [MethodNotFound, InvalidParams, InternalError, Reserved, NoAuth, FailAuth,
     Banned, NotEnoughPermissions, Unknown]

  /** The table entry of a name. */
  function Entry(n: ErrorName): (e: RpcError)
    ensures -32603 <= e.code <= -32000
    ensures e.message != ""
  {
    match n
    case MethodNotFound => RpcError(-32601, "Method not implemented")
    case InvalidParams => RpcError(-32602, "Wrong parameters")
    case InternalError => RpcError(-32603, "Server error")
    case Reserved => RpcError(-32000, "Reserved")
    case NoAuth => RpcError(-32001, "Not authorized")
    case FailAuth => RpcError(-32002, "Wrong login and/or password")
    case Banned => RpcError(-32003, "You were banned")
    case NotEnoughPermissions => RpcError(-32004, "Insufficient permissions")
    case Unknown => RpcError(-32000, "Unknown protocol error")
  }

  /** The entry as the JavaScript object `{code, message}` the code hands out. */
  function ErrorObject(n: ErrorName): (v: Value)
    ensures v.Obj? && v.fields.Keys == {"code", "message"}
    ensures Get(v, "code") == Num(Entry(n).code)
    ensures Get(v, "message") == Str(Entry(n).message)
  {
    Obj(map["code" := Num(Entry(n).code), "message" := Str(Entry(n).message)])
  }

  /** How section 5.1 (Error object) of the JSON-RPC 2.0 Specification
      classifies an error code. */
  datatype CodeClass =
    | ParseError
    | InvalidRequest
    | MethodNotFoundCode
    | InvalidParamsCode
    | InternalErrorCode
    | ServerError        // -32099..-32000, reserved for implementation-defined server errors
    | ReservedUnassigned // the rest of -32768..-32000
    | ApplicationDefined // outside the reserved block

  function Classify(code: int): CodeClass
  {
    if code == -32700 then ParseError
    else if code == -32600 then InvalidRequest
    else if code == -32601 then MethodNotFoundCode
    else if code == -32602 then InvalidParamsCode
    else if code == -32603 then InternalErrorCode
    else if -32099 <= code <= -32000 then ServerError
    else if -32768 <= code <= -32000 then ReservedUnassigned
    else ApplicationDefined
  }

  /** The three predefined entries carry the codes the JSON-RPC 2.0
      Specification gives their meaning; every other entry is a server error. */
  lemma TableFollowsJsonRpc()
    ensures Classify(Entry(MethodNotFound).code) == MethodNotFoundCode
    ensures Classify(Entry(InvalidParams).code) == InvalidParamsCode
    ensures Classify(Entry(InternalError).code) == InternalErrorCode
    ensures forall i :: 0 <= i < |AllNames| && AllNames[i] !in {MethodNotFound, InvalidParams, InternalError} ==>
      Classify(Entry(AllNames[i]).code) == ServerError
  {
  }

  /** The authentication and permission entries are consecutive server codes. */
  lemma AuthCodesConsecutive()
    ensures Entry(NoAuth).code == -32001
    ensures Entry(FailAuth).code == Entry(NoAuth).code - 1
    ensures Entry(Banned).code == Entry(FailAuth).code - 1
    ensures Entry(NotEnoughPermissions).code == Entry(Banned).code - 1
  {
  }

  /** Codes do not identify entries: RESERVED and UNKNOWN share one. */
  lemma CodesNotUnique()
    ensures exists a: ErrorName, b: ErrorName :: a != b && Entry(a).code == Entry(b).code
  {
    assert Reserved != Unknown && Entry(Reserved).code == Entry(Unknown).code;
  }
}

=== FILE: dispatcher.dfy ===
/**
  The handler table and message dispatch of the session manager: handlers
  registered per method name (with `*` the common group), each group run in
  registration order until a handler signals stop, and `processMessage`,
  which runs the common group, then the method's group or a method-not-found
  error, and sends the message unless `suppressSend` is truthy.
 */
module Dispatcher {
  import opened Js
  import opened Envelope
  import Sessions
  import Constants

  /** What a handler hands back through its callback: the message as it left
      it, and whether it signalled stop. */
  datatype Step = Step(msg: Message, stop: bool)

  /** A handler, run on the session and the message. */
  type Handler = (Sessions.Session, Message) -> Step

  /** The second argument of `addMethodHandler`. */
  datatype Callable = Function(run: Handler) | NotFunction(v: Value)

  type Table = map<string, seq<Handler>>

  /** The name of the common group. */
  const Common: string := "*"

  /** The table a manager starts with: an empty common group. */
  const InitialTable: Table := map[Common := []]

  /** The handlers registered under `name`; an absent group runs as none. */
  function Group(table: Table, name: string): seq<Handler>
  {
    if name in table then table[name] else []
  }

  /** `name.length`: a string's own length; any other value reads its
      `length` property, which numbers and booleans do not have. */
  function Length(name: Value): Value
  {
    if name.Str? then Num(|name.s|) else Get(name, "length")
  }

  /** The name test of `addMethodHandler`: `name` truthy, then
      `name.length > 0` as a numeric comparison. */
  predicate NameAccepted(name: Value)
  {
    Truthy(name) && ToNumber(Length(name)).Int? && ToNumber(Length(name)).i > 0
  }

  /** `addMethodHandler(name, func)`: appends a function to the end of the
      group keyed by `String(name)` when the name passes both tests; anything
      else is ignored. A non-empty string always passes; a number or boolean,
      having no `length`, never does. */
  function AddMethodHandler(table: Table, name: Value, func: Callable): (r: Table)
    ensures func.Function? && NameAccepted(name) ==>
      && r.Keys == table.Keys + {ToJsString(name)}
      && r[ToJsString(name)] == Group(table, ToJsString(name)) + [func.run]
      && forall k :: k in table && k != ToJsString(name) ==> r[k] == table[k]
    ensures !(func.Function? && NameAccepted(name)) ==> r == table
    ensures name.Str? && func.Function? ==> (r == table <==> name.s == "")
    ensures name.Num? || name.Bool? || IsNullish(name) ==> r == table
  {
    if func.Function? && NameAccepted(name) then
      var key := ToJsString(name);
      table[key := Group(table, key) + [func.run]]
    else table
  }

  /** `use(func)`: a function joins the end of the common group. */
  function Use(table: Table, func: Callable): (r: Table)
    ensures func.Function? ==>
      && r.Keys == table.Keys + {Common}
      && r[Common] == Group(table, Common) + [func.run]
      && forall k :: k in table && k != Common ==> r[k] == table[k]
    ensures !func.Function? ==> r == table
  {
    AddMethodHandler(table, Str(Common), func)
  }

  /** A run of a handler chain: the final message, whether a handler
      signalled stop, and the message each handler that ran was given. */
  datatype ChainRun = ChainRun(msg: Message, stopped: bool, inputs: seq<Message>)

  /** `r` is the run of `hs` on `s` and `m`: the handlers ran from the first
      in order, each on the message the previous one left, none after the
      first that signalled stop, and all of them if none did. */
  predicate ChainSpec(hs: seq<Handler>, s: Sessions.Session, m: Message, r: ChainRun)
  {
    && |r.inputs| <= |hs|
    && (|r.inputs| == 0 ==> |hs| == 0 && r.msg == m && !r.stopped)
    && (|r.inputs| > 0 ==>
          && r.inputs[0] == m
          && r.msg == hs[|r.inputs| - 1](s, r.inputs[|r.inputs| - 1]).msg
          && r.stopped == hs[|r.inputs| - 1](s, r.inputs[|r.inputs| - 1]).stop)
    && (forall i :: 0 <= i < |r.inputs| - 1 ==>
          !hs[i](s, r.inputs[i]).stop && r.inputs[i + 1] == hs[i](s, r.inputs[i]).msg)
    && (|r.inputs| < |hs| ==> r.stopped)
  }

  /** The handler chain, run one handler after another. */
  function RunChain(hs: seq<Handler>, s: Sessions.Session, m: Message): (r: ChainRun)
    ensures ChainSpec(hs, s, m, r)
    decreases |hs|
  {
    if |hs| == 0 then ChainRun(m, false, [])
    else
      var step := hs[0](s, m);
      if step.stop then ChainRun(step.msg, true, [m])
      else
        var rest := RunChain(hs[1..], s, step.msg);
        ChainRun(rest.msg, rest.stopped, [m] + rest.inputs)
  }

  /** A chain has exactly one run: `ChainSpec` determines it. */
  lemma ChainSpecUnique(hs: seq<Handler>, s: Sessions.Session, m: Message, r1: ChainRun, r2: ChainRun)
    requires ChainSpec(hs, s, m, r1) && ChainSpec(hs, s, m, r2)
    ensures r1 == r2
  {
    var n := if |r1.inputs| < |r2.inputs| then |r1.inputs| else |r2.inputs|;
    var k := 0;
    while k < n
      invariant 0 <= k <= n
      invariant forall j :: 0 <= j < k ==> r1.inputs[j] == r2.inputs[j]
    {
      if k > 0 {
        assert r1.inputs[k] == hs[k - 1](s, r1.inputs[k - 1]).msg;
        assert r2.inputs[k] == hs[k - 1](s, r2.inputs[k - 1]).msg;
      }
      k := k + 1;
    }
    if |r1.inputs| < |r2.inputs| {
      assert false;
    }
    if |r2.inputs| < |r1.inputs| {
      assert false;
    }
    assert r1.inputs == r2.inputs;
  }

  /** `runMethodHandlers(name, session, message)`: the named group's chain. */
  function RunMethodHandlers(table: Table, name: string, s: Sessions.Session, m: Message): (r: ChainRun)
    ensures ChainSpec(Group(table, name), s, m, r)
  {
    RunChain(Group(table, name), s, m)
  }

  /** What the method phase did. */
  datatype MethodPhase = Skipped | NotFound | Ran(run: ChainRun)

  /** A dispatch: both phases, the message as sent (or not), and the outbox. */
  datatype Dispatch = Dispatch(common: ChainRun, methodPhase: MethodPhase, msg: Message, outbox: seq<Delivery>)

  /** The error `createRpcError('METHOD_NOT_FOUND')` yields, taken to be the
      METHOD_NOT_FOUND entry. */
  const MethodNotFoundError: Value := Constants.ErrorObject(Constants.MethodNotFound)

  /** `processMessage(session, message)`, with `outbox` the deliveries so far.
      The handlers share one message object, so the method group is looked up
      by the method the common handlers left on it. */
  function ProcessMessage(table: Table, s: Sessions.Session, m: Message, outbox: seq<Delivery>): (r: Dispatch)
    ensures ChainSpec(Group(table, Common), s, m, r.common)
    ensures r.common.stopped ==> r.methodPhase == Skipped && r.msg == r.common.msg
    ensures !r.common.stopped && ToJsString(r.common.msg.methodName) !in table ==>
      r.methodPhase == NotFound && r.msg == r.common.msg.(error := MethodNotFoundError)
    ensures !r.common.stopped && ToJsString(r.common.msg.methodName) in table ==>
      && r.methodPhase.Ran?
      && ChainSpec(table[ToJsString(r.common.msg.methodName)], s, r.common.msg, r.methodPhase.run)
      && r.msg == r.methodPhase.run.msg
    ensures r.outbox == outbox + (if r.msg.suppressSend then [] else [Delivery(s.id, r.msg)])
  {
    var common := RunMethodHandlers(table, Common, s, m);
    var name := ToJsString(common.msg.methodName);
    var phase :=
      if common.stopped then Skipped
      else if name in table then Ran(RunMethodHandlers(table, name, s, common.msg))
      else NotFound;
    var msg := match phase
      case Skipped => common.msg
      case NotFound => common.msg.(error := MethodNotFoundError)
      case Ran(run) => run.msg;
    Dispatch(common, phase, msg, if !msg.suppressSend then outbox + [Delivery(s.id, msg)] else outbox)
  }

  /** Every dispatch sends at most once, and exactly once unless a handler set
      `suppressSend`, whatever the phases did. */
  lemma SendsOnceUnlessSuppressSend(table: Table, s: Sessions.Session, m: Message, outbox: seq<Delivery>)
    ensures var r := ProcessMessage(table, s, m, outbox);
      && |r.outbox| == |outbox| + (if r.msg.suppressSend then 0 else 1)
      && r.outbox[..|outbox|] == outbox
  {
  }

  /** Whatever the table, a dispatch that finds no group leaves
      METHOD_NOT_FOUND (-32601) on the wire; with no common handlers, a method
      without a group is such a dispatch. */
  lemma UnknownMethodReply(table: Table, s: Sessions.Session, m: Message, outbox: seq<Delivery>)
    ensures var r := ProcessMessage(table, s, m, outbox);
      r.methodPhase == NotFound ==> Get(Get(ToJson(r.msg), "error"), "code") == Num(-32601)
    ensures Group(table, Common) == [] && ToJsString(m.methodName) !in table ==>
      ProcessMessage(table, s, m, outbox).methodPhase == NotFound
  {
  }

  /** A handler registered under the number 5 is dropped: 5 is truthy but has
      no `length`. A message whose method is 5 then finds no group. */
  lemma NumberNameIgnored(s: Sessions.Session, m: Message, h: Handler)
    requires m.methodName == Num(5)
    ensures var table := AddMethodHandler(InitialTable, Num(5), Function(h));
      && table == InitialTable
      && ProcessMessage(table, s, m, []).methodPhase == NotFound
  {
    assert ToJsString(Num(5)) == "5";
  }

  /** `suppress()` does not stop the send: it sets `isSuppressed`, while the
      manager reads `suppressSend`. A method handler that suppresses its
      message still has it sent. */
  lemma SuppressDoesNotPreventSend(s: Sessions.Session, m: Message)
    requires !m.suppressSend && m.methodName == Str("ping")
    ensures var h: Handler := (_, msg) => Step(Suppress(msg), false);
      var table := AddMethodHandler(InitialTable, Str("ping"), Function(h));
      var r := ProcessMessage(table, s, m, []);
      r.msg.isSuppressed && r.outbox == [Delivery(s.id, r.msg)]
  {
    var h: Handler := (_, msg) => Step(Suppress(msg), false);
    var table := AddMethodHandler(InitialTable, Str("ping"), Function(h));
    assert ToJsString(m.methodName) == "ping";
    assert table["ping"] == [h];
    assert Group(table, Common) == [];
  }

  /** A common handler that rewrites the method reroutes the message: the
      group of the new method runs, although the method it arrived with has
      none. */
  lemma CommonHandlerReroutes(s: Sessions.Session, m: Message)
    requires m.methodName == Str("a") && !m.suppressSend
    ensures var h: Handler := (_, msg: Message) => Step(msg.(methodName := Str("b")), false);
      var g: Handler := (_, msg: Message) => Step(msg.(result := Str("done")), false);
      var table := AddMethodHandler(AddMethodHandler(InitialTable, Str(Common), Function(h)), Str("b"), Function(g));
      var r := ProcessMessage(table, s, m, []);
      "a" !in table && r.methodPhase.Ran? && r.msg.result == Str("done") && r.msg.error == m.error
  {
    var h: Handler := (_, msg: Message) => Step(msg.(methodName := Str("b")), false);
    var g: Handler := (_, msg: Message) => Step(msg.(result := Str("done")), false);
    var table := AddMethodHandler(AddMethodHandler(InitialTable, Str(Common), Function(h)), Str("b"), Function(g));
    assert table[Common] == [h] && table["b"] == [g];
    var common := RunChain(table[Common], s, m);
    assert common.inputs == [m];
    assert common.msg.methodName == Str("b");
    var run := RunChain(table["b"], s, common.msg);
    assert run.inputs == [common.msg];
  }
}

=== FILE: js.dfy ===
/**
  The fragment of JavaScript value semantics that the session manager relies
  on: truthiness (`!!v`, `a || b`, `a && b`), loose equality (`==`), string
  and number conversion (property keys, `Number(s)`), the 32-bit conversion
  behind the bitwise `&`, and the normal/throw outcome of a call.

  Numbers are unbounded integers; an object is its own-property table.
 */
module Js {

  /** A JavaScript value, restricted to what the modelled code handles. */
  datatype Value =
    | Undefined
    | Null
    | Bool(b: bool)
    | Num(n: int)
    | Str(s: string)
    | Obj(fields: map<string, Value>)

  datatype Option<T> = None | Some(value: T)

  /** The exceptions the modelled code can raise. */
  datatype JsError =
    | TypeError      // a method called on null/undefined, or a method that does not exist
    | InvalidObject  // the `Error('Invalid JSON-RPC Object')` of the message envelope
    | SyntaxError    // `JSON.parse` refusing its text
    | ReferenceError // a read of a name declared nowhere

  /** How a call ends: with a value, or by throwing. */
  datatype Completion<T> = Normal(value: T) | Throw(error: JsError)

  /** The object literal `{}`. */
  const EmptyObject: Value := Obj(map[])

  /** What `String(o)` gives for a plain object. */
  const ObjectText: string := "[object Object]"

  predicate Truthy(v: Value)
  {
    match v
    case Undefined => false
    case Null => false
    case Bool(b) => b
    case Num(n) => n != 0
    case Str(s) => s != ""
    case Obj(_) => true
  }

  /** `v == null` */
  predicate IsNullish(v: Value)
  {
    v.Undefined? || v.Null?
  }

  /** `a || b` */
  function Or(a: Value, b: Value): (r: Value)
    ensures Truthy(r) <==> Truthy(a) || Truthy(b)
    ensures Truthy(a) ==> r == a
    ensures !Truthy(a) ==> r == b
  {
    if Truthy(a) then a else b
  }

  /** `a && b` */
  function And(a: Value, b: Value): (r: Value)
    ensures Truthy(r) <==> Truthy(a) && Truthy(b)
  {
    if Truthy(a) then b else a
  }

  /** `v.name` for a value that is not null or undefined. The primitives carry
      none of the property names the modelled code reads. */
  function Get(v: Value, name: string): Value
  {
    if v.Obj? && name in v.fields then v.fields[name] else Undefined
  }

  // ---------------------------------------------------------------------
  // Decimal text
  // ---------------------------------------------------------------------

  predicate IsDigit(c: char)
  {
    '0' <= c <= '9'
  }

  predicate AllDigits(s: string)
  {
    forall i :: 0 <= i < |s| ==> IsDigit(s[i])
  }

  function DigitChar(d: nat): (c: char)
    requires d < 10
    ensures IsDigit(c)
  {
    ('0' as int + d) as char
  }

  function DigitValue(c: char): nat
    requires IsDigit(c)
  {
    c as int - '0' as int
  }

  /** The decimal digits of `n`, without leading zeros. */
  function NatText(n: nat): (s: string)
    ensures |s| > 0 && AllDigits(s)
    decreases n
  {
    if n < 10 then [DigitChar(n)] else NatText(n / 10) + [DigitChar(n % 10)]
  }

  /** The number a non-empty run of decimal digits denotes. */
  function DigitsValue(s: string): nat
    requires AllDigits(s)
    decreases |s|
  {
    if |s| == 0 then 0 else DigitsValue(s[..|s| - 1]) * 10 + DigitValue(s[|s| - 1])
  }

  /** `String(n)` for an integer number. */
  function NumberText(n: int): string
  {
    if n < 0 then "-" + NatText(-n) else NatText(n)
  }

  /** A number, or NaN. */
  datatype Number = NaN | Int(i: int)

  /** `Number(s)`: the empty string, or an optionally signed run of decimal
      digits; anything else is NaN. */
  function StringToNumber(s: string): Number
  {
    if s == "" then Int(0)
    else if |s| > 1 && (s[0] == '-' || s[0] == '+') && AllDigits(s[1..]) then
      var magnitude: int := DigitsValue(s[1..]);
      Int(if s[0] == '-' then -magnitude else magnitude)
    else if AllDigits(s) then Int(DigitsValue(s))
    else NaN
  }

  /** `Number(v)`; an object converts through its `toString`, which gives
      `ObjectText`. */
  function ToNumber(v: Value): Number
  {
    match v
    case Undefined => NaN
    case Null => Int(0)
    case Bool(b) => Int(if b then 1 else 0)
    case Num(n) => Int(n)
    case Str(s) => StringToNumber(s)
    case Obj(_) => StringToNumber(ObjectText)
  }

  /** `String(v)`, which is also the key `o[v]` reads and writes. */
  function ToJsString(v: Value): string
  {
    match v
    case Undefined => "undefined"
    case Null => "null"
    case Bool(b) => if b then "true" else "false"
    case Num(n) => NumberText(n)
    case Str(s) => s
    case Obj(_) => ObjectText
  }

  lemma {:induction false} NatTextRoundTrip(n: nat)
    ensures DigitsValue(NatText(n)) == n
    decreases n
  {
    if n >= 10 {
      var s := NatText(n);
      assert s[..|s| - 1] == NatText(n / 10);
      NatTextRoundTrip(n / 10);
    }
  }

  /** `Number(String(n)) === n` for every integer number. */
  lemma NumberTextRoundTrip(n: int)
    ensures StringToNumber(NumberText(n)) == Int(n)
  {
    if n < 0 {
      var s := NumberText(n);
      assert s[1..] == NatText(-n);
      NatTextRoundTrip(-n);
    } else {
      NatTextRoundTrip(n);
      assert NatText(n)[0] != '-' && NatText(n)[0] != '+';
    }
  }

  /** Two different numbers never share a property key. */
  lemma NumberKeysDistinct(a: int, b: int)
    requires a != b
    ensures ToJsString(Num(a)) != ToJsString(Num(b))
  {
    NumberTextRoundTrip(a);
    NumberTextRoundTrip(b);
  }

  // ---------------------------------------------------------------------
  // Loose equality
  // ---------------------------------------------------------------------

  predicate SameType(a: Value, b: Value)
  {
    || (a.Undefined? && b.Undefined?)
    || (a.Null? && b.Null?)
    || (a.Bool? && b.Bool?)
    || (a.Num? && b.Num?)
    || (a.Str? && b.Str?)
    || (a.Obj? && b.Obj?)
  }

  /** `a == b` (the IsLooselyEqual algorithm of ECMA-262 on these values):
      null and undefined equal only each other; an object compared with a
      primitive is first turned into `ObjectText`; otherwise mixed types are
      compared as numbers, and NaN equals nothing. */
  predicate LooseEq(a: Value, b: Value)
  {
    if IsNullish(a) || IsNullish(b) then IsNullish(a) && IsNullish(b)
    else if SameType(a, b) then a == b
    else if a.Obj? && b.Str? then b.s == ObjectText
    else if a.Str? && b.Obj? then a.s == ObjectText
    else if a.Obj? || b.Obj? then false
    else ToNumber(a).Int? && ToNumber(a) == ToNumber(b)
  }

  // ---------------------------------------------------------------------
  // 32-bit integers behind the bitwise operators
  // ---------------------------------------------------------------------

  const TwoTo32: int := 0x1_0000_0000

  /** `ToInt32(v)` as a bit pattern: the number modulo 2^32, NaN as 0. */
  function ToInt32(v: Value): bv32
  {
    match ToNumber(v)
    case NaN => 0
    case Int(i) => (i % TwoTo32) as bv32
  }

  /** The signed reading of a 32-bit pattern. */
  function Signed(b: bv32): (r: int)
    ensures -0x8000_0000 <= r < 0x8000_0000
    ensures (r == 0) <==> (b == 0)
  {
    if b < 0x8000_0000 then b as int else b as int - TwoTo32
  }

  /** `a & b` */
  function BitAnd(a: Value, b: Value): (r: Value)
    ensures r.Num? && (Truthy(r) <==> ToInt32(a) & ToInt32(b) != 0)
  {
    Num(Signed(ToInt32(a) & ToInt32(b)))
  }
}

=== FILE: message.dfy ===
/**
  The JSON-RPC style message envelope: construction with defaults, the
  object validity check, error assignment, suppression, and the selection
  of the outgoing shape. JSON text itself is not modelled: `ToJson` yields
  the object `JSON.stringify` would be handed, and `FromObject` consumes the
  object `JSON.parse` would produce.
 */
module Envelope {
  import opened Js
  import Constants

  /** A message instance. `suppressSend` is the property the manager consults
      before sending; nothing in the envelope sets it, so it holds a truthy
      value only when a handler assigned one. */
  datatype Message = Message(
    id: Value,
    methodName: Value,
    params: Value,
    result: Value,
    error: Value,
    isSuppressed: bool,
    suppressSend: bool)

  /** A message handed to a session's `send`, and the id of that session. */
  datatype Delivery = Delivery(to: Value, message: Message)

  /** `new Message(id, method, params, result, error)`: `fromParams` on a fresh
      instance, which is then marked not suppressed. */
  function FromParams(id: Value, methodName: Value, params: Value, result: Value, error: Value): (m: Message)
    ensures Truthy(id) ==> m.id == id
    ensures !Truthy(id) ==> m.id == Num(0)
    ensures Truthy(methodName) ==> m.methodName == methodName
    ensures !Truthy(methodName) ==> m.methodName == Str("")
    ensures Truthy(params) ==> m.params == params
    ensures !Truthy(params) ==> m.params == EmptyObject
    ensures Truthy(result) ==> m.result == result
    ensures !Truthy(result) ==> m.result == EmptyObject
    ensures Truthy(error) ==> m.error == error
    ensures !Truthy(error) ==> m.error == Null
    ensures !m.isSuppressed && !m.suppressSend
    ensures !IsNullish(m.id)
  {
    Message(Or(id, Num(0)), Or(methodName, Str("")), Or(params, EmptyObject),
            Or(result, EmptyObject), Or(error, Null), false, false)
  }

  /** `msgObj.name` after `msgObj = msgObj || {}`. */
  function Field(obj: Value, name: string): Value
  {
    Get(Or(obj, EmptyObject), name)
  }

  /** `new Message(obj)` for an object: `fromObject` refuses an object with a
      truthy id and no truthy method, and otherwise defaults every field as
      `fromParams` does. */
  function FromObject(obj: Value): (r: Completion<Message>)
    ensures r.Throw? <==> Truthy(Field(obj, "id")) && !Truthy(Field(obj, "method"))
    ensures r.Throw? ==> r.error == InvalidObject
    ensures r.Normal? ==> r.value == FromParams(Field(obj, "id"), Field(obj, "method"),
                                                Field(obj, "params"), Field(obj, "result"), Field(obj, "error"))
  {
    var o := Or(obj, EmptyObject);
    if !(Truthy(Get(o, "method")) || !Truthy(Get(o, "id"))) then Throw(InvalidObject)
    else Normal(Message(Or(Get(o, "id"), Num(0)), Or(Get(o, "method"), Str("")),
                        Or(Get(o, "params"), EmptyObject), Or(Get(o, "result"), EmptyObject),
                        Or(Get(o, "error"), Null), false, false))
  }

  /** The helper `hasProperty(obj, prop)` has no `return`, so a call that
      gets past `hasOwnProperty` yields undefined; `hasOwnProperty` itself
      throws on a null or undefined receiver. */
  function HasProperty(obj: Value, prop: string): Completion<Value>
  {
    if IsNullish(obj) then Throw(TypeError) else Normal(Undefined)
  }

  /** `fromString` once `JSON.parse` produced `parsed`: its own validity check,
      which can never refuse, then `fromObject`. */
  function FromParsed(parsed: Value): (r: Completion<Message>)
    ensures IsNullish(parsed) ==> r == Throw(TypeError)
    ensures !IsNullish(parsed) ==> r == FromObject(parsed)
  {
    match HasProperty(parsed, "method")
    case Throw(e) => Throw(e)
    case Normal(hasMethod) =>
      match HasProperty(parsed, "id")
      case Throw(e) => Throw(e)
      case Normal(hasId) =>
        if !(Truthy(hasMethod) || !Truthy(hasId)) then Throw(InvalidObject)
        else FromObject(parsed)
  }

  /** `fromString` is never stricter than `fromObject`: its own check passes
      every parsed value, even one with an id and no method. */
  lemma StringCheckNeverRefuses(parsed: Value)
    requires !IsNullish(parsed)
    ensures FromParsed(parsed) != Throw(InvalidObject) || FromObject(parsed) == Throw(InvalidObject)
  {
  }

  /** The i-th argument, undefined when not passed. */
  function Arg(args: seq<Value>, i: nat): Value
  {
    if i < |args| then args[i] else Undefined
  }

  /** `isString(value)`: true for a string without looking further; for an
      object-like value it goes on to compare with `stringTag`, a name
      declared nowhere, and so throws; any other value is not a string. */
  function IsString(v: Value): (r: Completion<bool>)
    ensures r == Throw(ReferenceError) <==> IsObject(v)
    ensures r == Normal(true) <==> v.Str?
    ensures r.Throw? || r == Normal(true) || r == Normal(false)
  {
    if v.Str? then Normal(true)
    else if v.Obj? then Throw(ReferenceError)
    else Normal(false)
  }

  /** `Message(...)`, with or without `new`: anything but exactly one argument
      goes positionally to `fromParams`. A single argument is first given to
      `isString`: a string is parsed (`parse` standing for `JSON.parse`, `None`
      for a SyntaxError) and goes through `fromString`; an object never gets
      past `isString`; any other value becomes the id through `fromParams`.
      The result is marked not suppressed. */
  function Construct(args: seq<Value>, parse: string -> Option<Value>): (r: Completion<Message>)
    ensures |args| != 1 ==> r == Normal(FromParams(Arg(args, 0), Arg(args, 1), Arg(args, 2), Arg(args, 3), Arg(args, 4)))
    ensures |args| == 1 && args[0].Str? ==>
      r == (match parse(args[0].s) case None => Throw(SyntaxError) case Some(v) => FromParsed(v))
    ensures |args| == 1 && IsObject(args[0]) ==> r == Throw(ReferenceError)
    ensures |args| == 1 && !args[0].Str? && !IsObject(args[0]) ==>
      r == Normal(FromParams(args[0], Undefined, Undefined, Undefined, Undefined))
    ensures r.Normal? ==> !r.value.isSuppressed && !r.value.suppressSend
  {
    if |args| != 1 then Normal(FromParams(Arg(args, 0), Arg(args, 1), Arg(args, 2), Arg(args, 3), Arg(args, 4)))
    else match IsString(args[0])
      case Throw(e) => Throw(e)
      case Normal(isText) =>
        if isText then
          match parse(args[0].s)
          case None => Throw(SyntaxError)
          case Some(v) => FromParsed(v)
        // `isObject` is never asked: an object already made `isString` throw
        else Normal(FromParams(args[0], Undefined, Undefined, Undefined, Undefined))
  }

  /** The text "null" (or any text parsing to null) throws a TypeError where
      an invalid message would have been reported. */
  lemma NullTextThrowsTypeError(text: string, parse: string -> Option<Value>)
    requires parse(text) == Some(Null)
    ensures Construct([Str(text)], parse) == Throw(TypeError)
  {
  }

  /** Text and the object it parses to part ways: the text builds the message
      `fromObject` builds from that object, while the object itself, handed
      over directly, throws before `fromObject` is reached. */
  lemma TextAndObjectDiverge(text: string, parse: string -> Option<Value>)
    requires parse(text).Some? && IsObject(parse(text).value)
    ensures Construct([Str(text)], parse) == FromObject(parse(text).value)
    ensures Construct([parse(text).value], parse) == Throw(ReferenceError)
  {
  }

  /** `new Message()` is the all-defaults message: id 0, empty method, empty
      params and result, no error. */
  lemma NoArgumentsDefaults(parse: string -> Option<Value>)
    ensures Construct([], parse) == Normal(Message(Num(0), Str(""), EmptyObject, EmptyObject, Null, false, false))
  {
  }

  /** `isObject(value)`: a truthy object or function; functions are not
      values here, and strings, numbers and booleans are never objects. */
  predicate IsObject(v: Value)
    ensures IsObject(v) ==> Truthy(v) && !IsNullish(v)
  {
    v.Obj?
  }

  /** `setError(error, message)`: keep an object error, otherwise take UNKNOWN;
      a truthy message text then replaces the error's `message`. */
  function SetError(m: Message, error: Value, text: Value): (r: Message)
    ensures r == m.(error := r.error)
    ensures r.error.Obj? && Truthy(r.error)
    ensures Truthy(text) ==> Get(r.error, "message") == text
    ensures Truthy(text) ==>
      r.error.fields.Keys == (if IsObject(error) then error.fields.Keys else {"code", "message"}) + {"message"}
    ensures IsObject(error) && !Truthy(text) ==> r.error == error
    ensures !IsObject(error) && !Truthy(text) ==> r.error == Constants.ErrorObject(Constants.Unknown)
    ensures IsObject(error) ==> forall k :: k in error.fields && k != "message" ==>
      k in r.error.fields && r.error.fields[k] == error.fields[k]
    ensures !IsObject(error) ==> Get(r.error, "code") == Num(Constants.Entry(Constants.Unknown).code)
  {
    var base := if IsObject(error) then error else Constants.ErrorObject(Constants.Unknown);
    var e := if Truthy(text) then Obj(base.fields["message" := text]) else base;
    m.(error := e)
  }

  /** `suppress()` */
  function Suppress(m: Message): (r: Message)
    ensures r.isSuppressed
    ensures r.(isSuppressed := m.isSuppressed) == m
  {
    m.(isSuppressed := true)
  }

  lemma SuppressIdempotent(m: Message)
    ensures Suppress(Suppress(m)) == Suppress(m)
    ensures Suppress(m).suppressSend == m.suppressSend
  {
  }

  /** `toJSON()`: an error reply whenever `error` is truthy; otherwise a
      notification when `id == null`, and a reply carrying `result` if not. */
  function ToJson(m: Message): (r: Value)
    ensures r.Obj?
    ensures Truthy(m.error) ==>
      && r.fields.Keys == {"id", "error"}
      && r.fields["id"] == m.id
      && r.fields["error"] == Obj(map["code" := Or(Get(m.error, "status"), Get(m.error, "code")),
                                      "message" := Get(m.error, "message")])
    ensures !Truthy(m.error) && IsNullish(m.id) ==>
      r.fields.Keys == {"method", "params"} && r.fields["method"] == m.methodName && r.fields["params"] == m.result
    ensures !Truthy(m.error) && !IsNullish(m.id) ==>
      r.fields.Keys == {"id", "result"} && r.fields["id"] == m.id && r.fields["result"] == m.result
  {
    var reply := Obj(map["id" := m.id, "result" := m.result]);
    var shaped := if LooseEq(m.id, Null) then Obj(map["method" := m.methodName, "params" := m.result]) else reply;
    if Truthy(m.error) then
      Obj(map["id" := m.id,
               "error" := Obj(map["code" := Or(Get(m.error, "status"), Get(m.error, "code")),
                                  "message" := Get(m.error, "message")])])
    else shaped
  }

  /** An error reply ignores `method`, `params` and `result`. */
  lemma ErrorWins(m: Message, methodName: Value, params: Value, result: Value)
    requires Truthy(m.error)
    ensures ToJson(m) == ToJson(m.(methodName := methodName, params := params, result := result))
  {
  }

  /** The error code prefers `status` over `code`. */
  lemma ErrorCodePrefersStatus(m: Message)
    requires Truthy(m.error) && Truthy(Get(m.error, "status"))
    ensures Get(Get(ToJson(m), "error"), "code") == Get(m.error, "status")
  {
  }

  /** Constructed messages never take the notification shape: their id is
      never null, so that shape needs a later assignment to `id`. */
  lemma ConstructedIsNeverNotification(id: Value, methodName: Value, params: Value, result: Value, error: Value, obj: Value)
    ensures "method" !in ToJson(FromParams(id, methodName, params, result, error)).fields
    ensures FromObject(obj).Normal? ==> "method" !in ToJson(FromObject(obj).value).fields
  {
  }

  /** A notification read back keeps its method, and its `result` comes back
      as `params`. */
  lemma NotificationRoundTrip(m: Message)
    requires !Truthy(m.error) && IsNullish(m.id)
    ensures FromObject(ToJson(m)).Normal?
    ensures FromObject(ToJson(m)).value.methodName == Or(m.methodName, Str(""))
    ensures FromObject(ToJson(m)).value.params == Or(m.result, EmptyObject)
    ensures Truthy(m.methodName) ==> FromObject(ToJson(m)).value.methodName == m.methodName
    ensures Truthy(m.result) ==> FromObject(ToJson(m)).value.params == m.result
  {
  }

  /** A reply with a truthy id cannot be read back: it carries no method. */
  lemma ReplyRoundTripThrows(m: Message)
    requires !Truthy(m.error) && Truthy(m.id)
    ensures FromObject(ToJson(m)) == Throw(InvalidObject)
  {
  }

  /** An error reply reads back only when its id is falsy, and then as a
      message whose `error` is the `{code, message}` object sent. */
  lemma ErrorRoundTrip(m: Message)
    requires Truthy(m.error)
    ensures FromObject(ToJson(m)).Throw? <==> Truthy(m.id)
    ensures FromObject(ToJson(m)).Normal? ==> FromObject(ToJson(m)).value.error == Get(ToJson(m), "error")
  {
  }

  /** A non-object error shows the UNKNOWN entry on the wire. */
  lemma NonObjectErrorIsUnknown(m: Message, error: Value)
    requires !IsObject(error)
    ensures Get(Get(ToJson(SetError(m, error, Undefined)), "error"), "code") == Num(-32000)
    ensures Get(Get(ToJson(SetError(m, error, Undefined)), "error"), "message") == Str("Unknown protocol error")
  {
  }
}

=== FILE: registry.dfy ===
/**
  The session manager's registry: the sessions by id, the owner index and
  the access-group index that the `Session:setOwner` / `Session:setAccess`
  listeners maintain, `stopSession`, and the three broadcasts built on them.
  Every lookup goes through a JavaScript property key, so an index entry is
  found by `String(value)`.
 */
module Registry {
  import opened Js
  import opened Envelope
  import Sessions

  /** A `sessions` slot: a session, or the null `stopSession` leaves. */
  datatype Slot = Live(session: Sessions.Session) | Nulled

  /** `sessions`, `mapOwner` (owner -> session id) and `mapAccess`
      (access value -> session ids in registration order). */
  datatype State = State(
    sessions: map<string, Slot>,
    mapOwner: map<string, Value>,
    mapAccess: map<string, seq<Value>>)

  /** `sessions[id]` as a `send` call sees it: a session, or nothing to call. */
  function Resolve(st: State, id: Value): Option<Sessions.Session>
  {
    var key := ToJsString(id);
    if key in st.sessions && st.sessions[key].Live? then Some(st.sessions[key].session) else None
  }

  /** `mapAccess[access]`, an absent group read as empty. */
  function Members(st: State, access: Value): seq<Value>
  {
    var key := ToJsString(access);
    if key in st.mapAccess then st.mapAccess[key] else []
  }

  /** Only the access group under `key` may differ between the two maps. */
  ghost predicate OtherGroupsUnchanged(st: State, st': State, key: string)
  {
    forall k :: k != key ==>
      (k in st.mapAccess <==> k in st'.mapAccess) &&
      (k in st.mapAccess ==> st'.mapAccess[k] == st.mapAccess[k])
  }

  /** The `Session:setOwner` listener: the owner now points at this session,
      whichever session it pointed at before. */
  function OnSetOwner(st: State, sessionId: Value, owner: Value): (r: State)
    ensures ToJsString(owner) in r.mapOwner && r.mapOwner[ToJsString(owner)] == sessionId
    ensures r.mapOwner.Keys == st.mapOwner.Keys + {ToJsString(owner)}
    ensures forall k :: k in st.mapOwner && k != ToJsString(owner) ==> r.mapOwner[k] == st.mapOwner[k]
    ensures r.sessions == st.sessions && r.mapAccess == st.mapAccess
  {
    st.(mapOwner := st.mapOwner[ToJsString(owner) := sessionId])
  }

  /** The `Session:setAccess` listener: appends the session to the group,
      leaving it in whatever group it was in before. */
  function OnSetAccess(st: State, sessionId: Value, access: Value): (r: State)
    ensures Members(r, access) == Members(st, access) + [sessionId]
    ensures ToJsString(access) in r.mapAccess
    ensures OtherGroupsUnchanged(st, r, ToJsString(access))
    ensures r.sessions == st.sessions && r.mapOwner == st.mapOwner
  {
    var key := ToJsString(access);
    st.(mapAccess := st.mapAccess[key := Members(st, access) + [sessionId]])
  }

  /** Two registrations for one owner: the later one wins. */
  lemma LastOwnerWins(st: State, first: Value, second: Value, owner: Value)
    ensures OnSetOwner(OnSetOwner(st, first, owner), second, owner).mapOwner[ToJsString(owner)] == second
  {
  }

  /** Moving a session from access `a` to access `b` leaves it a member of both. */
  lemma AccessChangeKeepsOldGroup(st: State, sessionId: Value, a: int, b: int)
    requires a != b
    ensures var r := OnSetAccess(OnSetAccess(st, sessionId, Num(a)), sessionId, Num(b));
      sessionId in Members(r, Num(a)) && sessionId in Members(r, Num(b))
  {
    NumberKeysDistinct(a, b);
    var r1 := OnSetAccess(st, sessionId, Num(a));
    assert Members(r1, Num(a))[|Members(r1, Num(a))| - 1] == sessionId;
  }

  /** A stored access string and the number it spells share one group. */
  lemma NumberAndTextShareGroup(st: State, n: int)
    ensures Members(st, Num(n)) == Members(st, Str(NumberText(n)))
  {
  }

  // ---------------------------------------------------------------------
  // stopSession
  // ---------------------------------------------------------------------

  /** `xs.indexOf(v)`: the first position holding `v`, or -1. */
  function IndexOf(xs: seq<Value>, v: Value): (i: int)
    ensures -1 <= i < |xs|
    ensures i >= 0 ==> xs[i] == v
    ensures forall j :: 0 <= j < |xs| && (i == -1 || j < i) ==> xs[j] != v
    decreases |xs|
  {
    if |xs| == 0 then -1
    else if xs[0] == v then 0
    else
      var j := IndexOf(xs[1..], v);
      if j == -1 then -1 else j + 1
  }

  /** `xs.splice(start, 1)`: removes one element; a negative start counts
      back from the end and is clamped at the front. */
  function SpliceOne(xs: seq<Value>, start: int): (ys: seq<Value>)
    ensures 0 <= start < |xs| ==> ys == xs[..start] + xs[start + 1..]
    ensures start == -1 && |xs| > 0 ==> ys == xs[..|xs| - 1]
    ensures |xs| == 0 ==> ys == []
  {
    var at := if start < 0 then (if |xs| + start < 0 then 0 else |xs| + start)
              else (if start > |xs| then |xs| else start);
    if at < |xs| then xs[..at] + xs[at + 1..] else xs
  }

  /** `ys` is `xs` without the first occurrence of `v`. */
  ghost predicate RemovesFirst(xs: seq<Value>, v: Value, ys: seq<Value>)
  {
    exists i :: 0 <= i < |xs| && xs[i] == v && v !in xs[..i] && ys == xs[..i] + xs[i + 1..]
  }

  /** `stopSession(session)`: nulls the owner's index entry if it is set, even
      when another session holds it; drops the element at `indexOf(id)` from
      the session's access group, which is the last element when the id is
      not there; and sets the session's entry to null without deleting it. */
  function StopSession(st: State, s: Sessions.Session): (r: State)
    ensures var ok := ToJsString(s.owner);
      if ok in st.mapOwner && Truthy(st.mapOwner[ok]) then r.mapOwner == st.mapOwner[ok := Null]
      else r.mapOwner == st.mapOwner
    ensures var ak := ToJsString(s.access);
      && OtherGroupsUnchanged(st, r, ak)
      && (ak in r.mapAccess <==> ak in st.mapAccess)
      && (ak in st.mapAccess ==>
            var xs := st.mapAccess[ak];
            && (s.id in xs ==> RemovesFirst(xs, s.id, r.mapAccess[ak]))
            && (s.id !in xs && |xs| > 0 ==> r.mapAccess[ak] == xs[..|xs| - 1])
            && (|xs| == 0 ==> r.mapAccess[ak] == []))
    ensures r.sessions == st.sessions[ToJsString(s.id) := Nulled]
  {
    var ok := ToJsString(s.owner);
    var owners := if ok in st.mapOwner && Truthy(st.mapOwner[ok]) then st.mapOwner[ok := Null] else st.mapOwner;
    var ak := ToJsString(s.access);
    var groups := if ak in st.mapAccess then st.mapAccess[ak := SpliceOne(st.mapAccess[ak], IndexOf(st.mapAccess[ak], s.id))]
                  else st.mapAccess;
    State(st.sessions[ToJsString(s.id) := Nulled], owners, groups)
  }

  // ---------------------------------------------------------------------
  // Broadcasts
  // ---------------------------------------------------------------------

  /** The sends of a `forEach` over ids, up to the first id whose `send`
      cannot be called. */
  datatype Fanout = Fanout(sent: seq<Delivery>, failed: bool)

  function Deliver(st: State, ids: seq<Value>, m: Message): (r: Fanout)
    ensures |r.sent| <= |ids|
    ensures forall i :: 0 <= i < |r.sent| ==>
      Resolve(st, ids[i]).Some? && r.sent[i] == Delivery(Resolve(st, ids[i]).value.id, m)
    ensures r.failed <==> |r.sent| < |ids|
    ensures r.failed ==> Resolve(st, ids[|r.sent|]).None?
    decreases |ids|
  {
    if |ids| == 0 then Fanout([], false)
    else match Resolve(st, ids[0])
      case None => Fanout([], true)
      case Some(s) =>
        var rest := Deliver(st, ids[1..], m);
        Fanout([Delivery(s.id, m)] + rest.sent, rest.failed)
  }

  /** A broadcast's outbox, and the error it threw, if any. */
  datatype Sent = Sent(outbox: seq<Delivery>, error: Option<JsError>)

  /** `order` lists each key of `sessions` once: the order `_.each` visits them in. */
  ghost predicate Enumerates(st: State, order: seq<string>)
  {
    && (forall k :: k in st.sessions <==> k in order)
    && (forall i, j :: 0 <= i < j < |order| ==> order[i] != order[j])
  }

  function KeyValues(order: seq<string>): (ids: seq<Value>)
    ensures |ids| == |order| && forall i :: 0 <= i < |order| ==> ids[i] == Str(order[i])
  {
    seq(|order|, i requires 0 <= i < |order| => Str(order[i]))
  }

  /** `broadcast(message)`: sends to the entries of `sessions` in `order`; a
      null entry throws, after the sends before it. */
  function Broadcast(st: State, order: seq<string>, m: Message, outbox: seq<Delivery>): (r: Sent)
    requires Enumerates(st, order)
    ensures |outbox| <= |r.outbox| <= |outbox| + |order| && r.outbox[..|outbox|] == outbox
    ensures forall i :: |outbox| <= i < |r.outbox| ==>
      var k := order[i - |outbox|];
      k in st.sessions && st.sessions[k].Live? && r.outbox[i] == Delivery(st.sessions[k].session.id, m)
    ensures r.error.None? <==> forall k :: k in st.sessions ==> st.sessions[k].Live?
    ensures r.error.None? ==> |r.outbox| == |outbox| + |order|
    ensures r.error.Some? ==> r.error.value == TypeError
    ensures r.error.Some? ==>
      && |r.outbox| < |outbox| + |order|
      && var k := order[|r.outbox| - |outbox|]; k in st.sessions && !st.sessions[k].Live?
  {
    var ids := KeyValues(order);
    var f := Deliver(st, ids, m);
    FanoutFailsOnNulled(st, order, m);
    assert forall i :: 0 <= i < |ids| ==> ToJsString(ids[i]) == order[i];
    Sent(outbox + f.sent, if f.failed then Some(TypeError) else None)
  }

  /** Over all keys, the fan-out stops short exactly when some entry is null. */
  lemma FanoutFailsOnNulled(st: State, order: seq<string>, m: Message)
    requires Enumerates(st, order)
    ensures Deliver(st, KeyValues(order), m).failed <==> exists k :: k in st.sessions && !st.sessions[k].Live?
  {
    var ids := KeyValues(order);
    var f := Deliver(st, ids, m);
    assert forall i :: 0 <= i < |ids| ==> ToJsString(ids[i]) == order[i];
    if f.failed {
      assert order[|f.sent|] in st.sessions && !st.sessions[order[|f.sent|]].Live?;
    } else {
      forall k | k in st.sessions
        ensures st.sessions[k].Live?
      {
        var i :| 0 <= i < |order| && order[i] == k;
        assert Resolve(st, ids[i]).Some?;
      }
    }
  }

  /** `broadcastByUser(userId, message)`: at most one send, to the session the
      owner index names, and a throw when that entry is gone. */
  function BroadcastByUser(st: State, userId: Value, m: Message, outbox: seq<Delivery>): (r: Sent)
    ensures var key := ToJsString(userId);
      if key in st.mapOwner && Truthy(st.mapOwner[key]) then
        var f := Deliver(st, [st.mapOwner[key]], m);
        r.outbox == outbox + f.sent && (r.error.Some? <==> f.failed) && (r.error.Some? ==> r.error.value == TypeError)
      else r == Sent(outbox, None)
    ensures |r.outbox| <= |outbox| + 1
  {
    var key := ToJsString(userId);
    if key in st.mapOwner && Truthy(st.mapOwner[key]) then
      match Resolve(st, st.mapOwner[key])
      case Some(s) => Sent(outbox + [Delivery(s.id, m)], None)
      case None => Sent(outbox, Some(TypeError))
    else Sent(outbox, None)
  }

  /** `broadcastByGroup(access, message)`: one send per occurrence of an id in
      the group, in list order, up to the first id without a session. */
  function BroadcastByGroup(st: State, access: Value, m: Message, outbox: seq<Delivery>): (r: Sent)
    ensures var ids := Members(st, access);
      && |outbox| <= |r.outbox| <= |outbox| + |ids|
      && r.outbox[..|outbox|] == outbox
      && (forall i :: |outbox| <= i < |r.outbox| ==>
            Resolve(st, ids[i - |outbox|]).Some? &&
            r.outbox[i] == Delivery(Resolve(st, ids[i - |outbox|]).value.id, m))
      && (r.error.None? <==> |r.outbox| == |outbox| + |ids|)
      && (r.error.Some? ==> r.error.value == TypeError && Resolve(st, ids[|r.outbox| - |outbox|]).None?)
  {
    if ToJsString(access) in st.mapAccess then
      var f := Deliver(st, st.mapAccess[ToJsString(access)], m);
      Sent(outbox + f.sent, if f.failed then Some(TypeError) else None)
    else Sent(outbox, None)
  }

  // ---------------------------------------------------------------------
  // Consequences
  // ---------------------------------------------------------------------

  /** Stopping one session of an owner clears the index entry another session
      of the same owner registered later, so that owner can no longer be
      reached. */
  lemma StopClearsOtherSessionsOwner(st: State, a: Sessions.Session, bId: Value, m: Message)
    requires Truthy(bId) && bId != a.id
    requires ToJsString(a.owner) in st.mapOwner && st.mapOwner[ToJsString(a.owner)] == bId
    ensures var r := StopSession(st, a);
      r.mapOwner[ToJsString(a.owner)] == Null && BroadcastByUser(r, a.owner, m, []) == Sent([], None)
  {
  }

  /** Once any session was stopped, `broadcast` throws: its entry is null. */
  lemma BroadcastThrowsAfterStop(st: State, s: Sessions.Session, order: seq<string>, m: Message)
    requires Enumerates(StopSession(st, s), order)
    ensures Broadcast(StopSession(st, s), order, m, []).error == Some(TypeError)
  {
    var r := StopSession(st, s);
    assert ToJsString(s.id) in r.sessions && !r.sessions[ToJsString(s.id)].Live?;
  }

  /** After its access moved from `a` to `b`, a session still receives the
      broadcasts of group `a`. */
  lemma OldGroupStillReached(st: State, s: Sessions.Session, a: int, b: int, m: Message)
    requires a != b && Members(st, Num(a)) == []
    requires Resolve(st, s.id) == Some(s)
    ensures var r := OnSetAccess(OnSetAccess(st, s.id, Num(a)), s.id, Num(b));
      BroadcastByGroup(r, Num(a), m, []) == Sent([Delivery(s.id, m)], None)
  {
    NumberKeysDistinct(a, b);
    var r1 := OnSetAccess(st, s.id, Num(a));
    var r := OnSetAccess(r1, s.id, Num(b));
    assert Members(r, Num(a)) == [s.id];
    var f := Deliver(r, [s.id], m);
    assert f.sent[0] == Delivery(s.id, m);
    assert f.sent == [Delivery(s.id, m)];
  }

  /** A session stopped before `stopSession` runs is no longer found by it:
      `stop()` already reset its id to 0, so its own entry stays live. */
  lemma StopFirstHidesSession(st: State, s: Sessions.Session, store: Sessions.HashStore.Store)
    requires ToJsString(s.id) != "0" && ToJsString(s.id) in st.sessions
    ensures var stopped := Sessions.Stop(s, store).session;
      StopSession(st, stopped).sessions[ToJsString(s.id)] == st.sessions[ToJsString(s.id)]
  {
  }
}

=== FILE: session.dfy ===
/**
  The abstract session: its record of id, owner, access and activity, the
  operations that move it through start, activity refresh and stop, the
  owner/access setters, and the rights checks, all over the key/hash store.
  Each operation returns the new session, the new store and the events the
  session emitted.
 */
module Sessions {
  import opened Js
  import opened HashStore
  import AccessControl
  import Constants

  /** The construction parameters the session reads; Undefined when absent. */
  datatype Params = Params(timeout: Value, ownerIdField: Value, sessionPrefix: Value, unsafeOwnership: Value)

  datatype Session = Session(
    id: Value,
    owner: Value,
    access: Value,
    lastActive: int,
    timeout: Value,
    ownerIdField: Value,
    sessionPrefix: Value,
    unsafeOwnership: bool)

  /** What the session emits on itself. */
  datatype Event =
    | Updated
    | Started(id: Value)
    | Stopped(id: Value)
    | OwnerSet(id: Value, owner: Value)
    | AccessSet(id: Value, access: Value)

  /** The outcome of a session operation. */
  datatype Effect = Effect(session: Session, store: Store, events: seq<Event>)

  const OwnerKey: Value := Str("owner")
  const AccessKey: Value := Str("access")
  const LastActiveKey: Value := Str("lastActive")

  /** `new AbstractSession(params, storage)`: a 3600-second timeout and the
      owner id field `id` unless given, trust in memory only on request. */
  function NewSession(params: Params): (s: Session)
    ensures Truthy(s.timeout) && Truthy(s.ownerIdField)
    ensures Truthy(params.timeout) ==> s.timeout == params.timeout
    ensures !Truthy(params.timeout) ==> s.timeout == Num(3600)
    ensures Truthy(params.ownerIdField) ==> s.ownerIdField == params.ownerIdField
    ensures !Truthy(params.ownerIdField) ==> s.ownerIdField == Str("id")
    ensures s.sessionPrefix == params.sessionPrefix
    ensures s.unsafeOwnership <==> Truthy(params.unsafeOwnership)
    ensures s.lastActive == 0 && s.id == Undefined && s.owner == Undefined && s.access == Undefined
  {
    Session(Undefined, Undefined, Undefined, 0, Or(params.timeout, Num(3600)),
            Or(params.ownerIdField, Str("id")), params.sessionPrefix, Truthy(params.unsafeOwnership))
  }

  /** `getSync(key)`: the field of this session's own hash, null when the
      hash or the field is missing. */
  function GetSync(s: Session, st: Store, key: Value): (v: Value)
    ensures key in HashOf(st, s.id) ==> v == st.hashes[s.id][key]
    ensures key !in HashOf(st, s.id) ==> v == Null
  {
    HGet(st, s.id, key)
  }

  /** `setSync(key, value)`: one field of this session's own hash. */
  function SetSync(s: Session, st: Store, key: Value, v: Value): (st': Store)
    ensures s.id in st'.hashes && st'.hashes[s.id].Keys == HashOf(st, s.id).Keys + {key}
    ensures forall k :: k in HashOf(st, s.id) && k != key ==> st'.hashes[s.id][k] == HashOf(st, s.id)[k]
    ensures OthersUnchanged(st, st', s.id) && st'.ttl == st.ttl
  {
    HSet(st, s.id, key, v)
  }

  /** `purgeSessionSync()`: this session's hash, and nothing else, is gone. */
  function PurgeSessionSync(s: Session, st: Store): (st': Store)
    ensures s.id !in st'.hashes
    ensures OthersUnchanged(st, st', s.id) && st'.ttl == st.ttl
  {
    Purge(st, s.id)
  }

  /** What `setSync` writes, `getSync` reads back; after `purgeSessionSync`
      every field reads as null. */
  lemma SetThenGet(s: Session, st: Store, key: Value, other: Value, v: Value)
    ensures GetSync(s, SetSync(s, st, key, v), key) == v
    ensures other != key ==> GetSync(s, SetSync(s, st, key, v), other) == GetSync(s, st, other)
    ensures GetSync(s, PurgeSessionSync(s, st), key) == Null
  {
  }

  /** `updateActivity()` at time `now`: read the whole hash, add `lastActive`,
      purge, write every field back, and renew the expiry. */
  function UpdateActivity(s: Session, st: Store, now: int): (r: Effect)
    ensures r.session == s.(lastActive := now)
    ensures s.id in r.store.hashes
    ensures r.store.hashes[s.id].Keys == HashOf(st, s.id).Keys + {LastActiveKey}
    ensures r.store.hashes[s.id][LastActiveKey] == Num(now)
    ensures forall k :: k in HashOf(st, s.id) && k != LastActiveKey ==> r.store.hashes[s.id][k] == HashOf(st, s.id)[k]
    ensures OthersUnchanged(st, r.store, s.id)
    ensures r.store.ttl == st.ttl[s.id := s.timeout]
    ensures r.events == [Updated]
  {
    var s' := s.(lastActive := now);
    var values := match HGetAll(st, s'.id) case Some(h) => h case None => map[];
    var values' := values[LastActiveKey := Num(now)];
    var purged := PurgeSessionSync(s', st);
    var written := HSetAll(purged, s'.id, values');
    Effect(s', Expire(written, s'.id, s'.timeout), [Updated])
  }

  /** `isActive()`: passes the id where the field name belongs, so it reads
      the field named after the session id rather than `lastActive`. */
  function IsActive(s: Session, st: Store): (r: bool)
    ensures r <==> s.id in HashOf(st, s.id) && Truthy(st.hashes[s.id][s.id])
  {
    Truthy(GetSync(s, st, s.id))
  }

  /** The refreshed `lastActive` is never what `isActive` consults: after an
      activity update it reports whatever the field named after the id held. */
  lemma IsActiveIgnoresActivity(s: Session, st: Store, now: int)
    requires s.id != LastActiveKey
    ensures var r := UpdateActivity(s, st, now);
      IsActive(r.session, r.store) == Truthy(HGet(st, s.id, s.id))
  {
  }

  /** So a session whose hash has no field named after its id is inactive
      even immediately after its activity was refreshed. */
  lemma RefreshedButInactive(s: Session, st: Store, now: int)
    requires s.id != LastActiveKey && s.id !in HashOf(st, s.id)
    ensures var r := UpdateActivity(s, st, now);
      HGet(r.store, s.id, LastActiveKey) == Num(now) && !IsActive(r.session, r.store)
  {
  }

  // ---------------------------------------------------------------------
  // Fresh ids
  // ---------------------------------------------------------------------

  predicate IsHexDigit(c: char)
  {
    '0' <= c <= '9' || 'a' <= c <= 'f'
  }

  function HexDigit(n: bv8): (c: char)
    requires n < 16
    ensures IsHexDigit(c)
  {
    if n < 10 then ('0' as int + n as int) as char else ('a' as int + n as int - 10) as char
  }

  /** `buffer.toString('hex')`: two lower-case digits per byte. */
  function Hex(bytes: seq<bv8>): (h: string)
    ensures |h| == 2 * |bytes|
    ensures forall i :: 0 <= i < |h| ==> IsHexDigit(h[i])
    decreases |bytes|
  {
    if |bytes| == 0 then ""
    else [HexDigit(bytes[0] >> 4), HexDigit(bytes[0] & 15)] + Hex(bytes[1..])
  }

  lemma HexDigitInjective(a: bv8, b: bv8)
    requires a < 16 && b < 16 && HexDigit(a) == HexDigit(b)
    ensures a == b
  {
  }

  lemma {:induction false} HexInjective(x: seq<bv8>, y: seq<bv8>)
    requires |x| == |y| && Hex(x) == Hex(y)
    ensures x == y
    decreases |x|
  {
    if |x| > 0 {
      var hx := Hex(x);
      var hy := Hex(y);
      assert hx[0] == hy[0] && hx[1] == hy[1];
      HexDigitInjective(x[0] >> 4, y[0] >> 4);
      HexDigitInjective(x[0] & 15, y[0] & 15);
      assert x[0] == ((x[0] >> 4) << 4) | (x[0] & 15);
      assert y[0] == ((y[0] >> 4) << 4) | (y[0] & 15);
      assert hx[2..] == Hex(x[1..]) && hy[2..] == Hex(y[1..]);
      HexInjective(x[1..], y[1..]);
      assert x == [x[0]] + x[1..] && y == [y[0]] + y[1..];
    }
  }

  /** `sessionPrefix + '_' + randomBytes.toString('hex')` */
  function FreshId(prefix: Value, random: seq<bv8>): (id: string)
    requires |random| == 16
    ensures var p := ToJsString(prefix);
      && |id| == |p| + 33
      && id[..|p|] == p
      && id[|p|] == '_'
      && forall i :: |p| < i < |id| ==> IsHexDigit(id[i])
  {
    ToJsString(prefix) + "_" + Hex(random)
  }

  /** Different random bytes give different ids under the same prefix. */
  lemma FreshIdsDistinct(prefix: Value, r1: seq<bv8>, r2: seq<bv8>)
    requires |r1| == 16 && |r2| == 16 && r1 != r2
    ensures FreshId(prefix, r1) != FreshId(prefix, r2)
  {
    var p := ToJsString(prefix);
    if FreshId(prefix, r1) == FreshId(prefix, r2) {
      assert FreshId(prefix, r1)[|p| + 1..] == Hex(r1);
      assert FreshId(prefix, r2)[|p| + 1..] == Hex(r2);
      HexInjective(r1, r2);
    }
  }

  // ---------------------------------------------------------------------
  // Lifecycle
  // ---------------------------------------------------------------------

  /** `start(id)` at time `now`, with `random` the 16 bytes `crypto.randomBytes`
      gives: a truthy id is resumed with owner and access read from the store,
      any other id is replaced by a fresh one with no owner or access; the
      activity is then refreshed and `start` emitted with the id. */
  function Start(s: Session, st: Store, id: Value, now: int, random: seq<bv8>): (r: Effect)
    requires |random| == 16
    ensures Truthy(id) ==> r.session.id == id && r.session.owner == HGet(st, id, OwnerKey)
                           && r.session.access == HGet(st, id, AccessKey)
    ensures !Truthy(id) ==> r.session.id == Str(FreshId(s.sessionPrefix, random))
                            && r.session.owner == Null && r.session.access == Null
    ensures r.session == s.(id := r.session.id, owner := r.session.owner, access := r.session.access, lastActive := now)
    ensures r.session.id in r.store.hashes
    ensures r.store.hashes[r.session.id].Keys == HashOf(st, r.session.id).Keys + {LastActiveKey}
    ensures HGet(r.store, r.session.id, LastActiveKey) == Num(now)
    ensures forall k :: k in HashOf(st, r.session.id) && k != LastActiveKey ==>
      HGet(r.store, r.session.id, k) == HashOf(st, r.session.id)[k]
    ensures OthersUnchanged(st, r.store, r.session.id)
    ensures r.store.ttl == st.ttl[r.session.id := s.timeout]
    ensures r.events == [Updated, Started(r.session.id)]
  {
    var s' := if Truthy(id) then
        var withId := s.(id := id);
        withId.(owner := GetSync(withId, st, OwnerKey), access := GetSync(withId, st, AccessKey))
      else s.(id := Str(FreshId(s.sessionPrefix, random)), owner := Null, access := Null);
    var u := UpdateActivity(s', st, now);
    Effect(u.session, u.store, u.events + [Started(u.session.id)])
  }

  /** `stop()`: resets the id to 0 before purging, so it purges hash 0 and
      emits `stop` with 0; the hash of the id it held is left in place. */
  function Stop(s: Session, st: Store): (r: Effect)
    ensures r.session == s.(id := Num(0), owner := Null, access := Num(0))
    ensures r.store.hashes == st.hashes - {Num(0)}
    ensures r.store.ttl == st.ttl
    ensures s.id != Num(0) && s.id in st.hashes ==> s.id in r.store.hashes && r.store.hashes[s.id] == st.hashes[s.id]
    ensures r.events == [Stopped(Num(0))]
  {
    var s' := s.(id := Num(0), owner := Null, access := Num(0));
    Effect(s', PurgeSessionSync(s', st), [Stopped(s'.id)])
  }

  /** The store write `setOwner`/`setAccess` make unless told not to. */
  function Persist(s: Session, st: Store, key: Value, v: Value, suppressUpdate: Value): (st': Store)
    ensures Truthy(suppressUpdate) ==> st' == st
    ensures !Truthy(suppressUpdate) ==>
      && s.id in st'.hashes
      && st'.hashes[s.id] == HashOf(st, s.id)[key := v]
      && OthersUnchanged(st, st', s.id)
      && st'.ttl == st.ttl
  {
    if !Truthy(suppressUpdate) then SetSync(s, st, key, v) else st
  }

  /** `setOwner(owner, suppressUpdate)`: the session takes the owner, the
      store records it unless the update is suppressed, and `owner` is emitted
      either way. */
  function SetOwner(s: Session, st: Store, owner: Value, suppressUpdate: Value): (r: Effect)
    ensures r.session.owner == owner && r.session.(owner := s.owner) == s
    ensures Truthy(suppressUpdate) ==> r.store == st
    ensures !Truthy(suppressUpdate) ==>
      HGet(r.store, s.id, OwnerKey) == owner && r.store == Persist(s, st, OwnerKey, owner, suppressUpdate)
    ensures r.events == [OwnerSet(s.id, owner)]
  {
    Effect(s.(owner := owner), Persist(s, st, OwnerKey, owner, suppressUpdate), [OwnerSet(s.id, owner)])
  }

  /** `setAccess(access, suppressUpdate)`, the same for the access value. */
  function SetAccess(s: Session, st: Store, access: Value, suppressUpdate: Value): (r: Effect)
    ensures r.session.access == access && r.session.(access := s.access) == s
    ensures Truthy(suppressUpdate) ==> r.store == st
    ensures !Truthy(suppressUpdate) ==>
      HGet(r.store, s.id, AccessKey) == access && r.store == Persist(s, st, AccessKey, access, suppressUpdate)
    ensures r.events == [AccessSet(s.id, access)]
  {
    Effect(s.(access := access), Persist(s, st, AccessKey, access, suppressUpdate), [AccessSet(s.id, access)])
  }

  /** Owner and access written through the setters are what a later
      `start(id)` with the same id reads back. */
  lemma ResumeReadsBack(s: Session, st: Store, owner: Value, access: Value, other: Session, now: int, random: seq<bv8>)
    requires Truthy(s.id) && |random| == 16
    ensures var st1 := SetOwner(s, st, owner, Undefined).store;
      var st2 := SetAccess(s.(owner := owner), st1, access, Undefined).store;
      var r := Start(other, st2, s.id, now, random);
      r.session.owner == owner && r.session.access == access
  {
  }

  /** A suppressed update leaves the stored value in place, so a resumed
      session comes back with the owner it had before. */
  lemma SuppressedOwnerNotResumed(s: Session, st: Store, owner: Value, other: Session, now: int, random: seq<bv8>)
    requires Truthy(s.id) && |random| == 16
    ensures var r := Start(other, SetOwner(s, st, owner, Bool(true)).store, s.id, now, random);
      r.session.owner == HGet(st, s.id, OwnerKey)
  {
  }

  // ---------------------------------------------------------------------
  // Rights
  // ---------------------------------------------------------------------

  /** The access value `hasAccess` checks: the in-memory one under unsafe
      ownership, the stored one otherwise. */
  function AccessValue(s: Session, st: Store): Value
  {
    if s.unsafeOwnership then s.access else GetSync(s, st, AccessKey)
  }

  /** `hasAccess(desired, strict)` */
  function HasAccess(s: Session, st: Store, desired: AccessControl.Desired, strict: Value): (r: bool)
    ensures var a := AccessValue(s, st);
      && (AccessControl.IsGodValue(a) ==> !r)
      && (AccessControl.IsBannedValue(a) ==> r)
      && (!AccessControl.IsGodValue(a) && !AccessControl.IsBannedValue(a) ==>
            (r <==> if AccessControl.StrictMode(strict) then AccessControl.AllGranted(a, AccessControl.Rights(desired))
                                                       else AccessControl.AnyGranted(a, AccessControl.Rights(desired))))
  {
    AccessControl.Check(AccessValue(s, st), desired, strict)
  }

  /** A stored access, not the in-memory one, decides unless ownership is unsafe. */
  lemma StoredAccessDecides(s: Session, st: Store, desired: AccessControl.Desired, strict: Value)
    requires !s.unsafeOwnership
    ensures HasAccess(s, st, desired, strict) == HasAccess(s.(access := HGet(st, s.id, AccessKey)), st, desired, strict)
    ensures HasAccess(s, st, desired, strict) == AccessControl.Check(HGet(st, s.id, AccessKey), desired, strict)
  {
  }

  /** `hasAccessOrMe(userId, desired, strict)`: the owner, or else the rights.
      Outside unsafe ownership it calls `getValueSync`, which sessions do not
      have, and so throws. */
  function HasAccessOrMe(s: Session, st: Store, userId: Value, desired: AccessControl.Desired, strict: Value): (r: Completion<bool>)
    ensures !s.unsafeOwnership ==> r == Throw(TypeError)
    ensures s.unsafeOwnership && LooseEq(s.owner, userId) ==> r == Normal(true)
    ensures s.unsafeOwnership && !LooseEq(s.owner, userId) ==> r == Normal(HasAccess(s, st, desired, strict))
    ensures r.Normal? ==> (r.value <==> LooseEq(s.owner, userId) || HasAccess(s, st, desired, strict))
  {
    if !s.unsafeOwnership then Throw(TypeError)
    else if LooseEq(s.owner, userId) then Normal(true)
    else Normal(HasAccess(s, st, desired, strict))
  }
}

=== FILE: store.dfy ===
/**
  The key/hash store a session persists into, as the session's synchronous
  wrappers see it: one hash of fields per session id, and the expiry last
  requested for each id. Expiry is recorded, never enacted.
 */
module HashStore {
  import opened Js

  type Hash = map<Value, Value>

  datatype Store = Store(hashes: map<Value, Hash>, ttl: map<Value, Value>)

  /** The fields held under `id`, none when the hash is absent. */
  function HashOf(st: Store, id: Value): Hash
  {
    if id in st.hashes then st.hashes[id] else map[]
  }

  /** `getHValueSync(id, key)`: null for a missing hash or field. */
  function HGet(st: Store, id: Value, key: Value): Value
  {
    if key in HashOf(st, id) then HashOf(st, id)[key] else Null
  }

  /** `getHValuesSync(id)`: the whole hash, or nothing. */
  function HGetAll(st: Store, id: Value): Option<Hash>
  {
    if id in st.hashes then Some(st.hashes[id]) else None
  }

  /** `setHValueSync(id, key, value)` */
  function HSet(st: Store, id: Value, key: Value, v: Value): Store
  {
    st.(hashes := st.hashes[id := HashOf(st, id)[key := v]])
  }

  /** Writing every field of `fields` under `id`, one `setHValueSync` each. */
  function HSetAll(st: Store, id: Value, fields: Hash): Store
  {
    st.(hashes := st.hashes[id := HashOf(st, id) + fields])
  }

  /** `purgeHashSync(id)` */
  function Purge(st: Store, id: Value): Store
  {
    st.(hashes := st.hashes - {id})
  }

  /** `expireSync(id, timeout)` */
  function Expire(st: Store, id: Value, timeout: Value): Store
  {
    st.(ttl := st.ttl[id := timeout])
  }

  /** Only the hash under `id` may differ between the two stores. */
  ghost predicate OthersUnchanged(st: Store, st': Store, id: Value)
  {
    forall other :: other != id ==>
      (other in st.hashes <==> other in st'.hashes) &&
      (other in st.hashes ==> st'.hashes[other] == st.hashes[other])
  }
}
